=== FILE: README.md ===
# glow — a Dafny model of the LED pulse daemon

`glow.py` drives Pimoroni Blinkt! strips and Unicorn HAT grids with a
"breathing" pulse. Each glow channel holds a state record (`Glow`): phase
reference `start_time`, pulse `duration`, base `colour`, `brightness`,
shaping exponent `power`, envelope `min`/`max` and loop `delay`. A worker
thread re-renders every glow on each pass. A small HTTP API reads the
state (`to_json`) and merges updates into it (`from_json`). The `cli`
command builds the initial glows from defaults, preset flags and explicit
overrides.

This project models the pure logic inside that plumbing:

- `wrappers.dfy` (`Wrappers`): `Option` and `Result`.
- `glow_state.dfy` (`GlowState`): the attribute dictionary of a glow as a
  complete map from `Field` to dynamic JSON `Value`s, the defaults,
  `from_json` (raw merge, then text coercions in source order, with no
  rollback), the POST handler that swallows errors, and `to_json`.
- `waveform.dfy` (`Waveform`): Python's float `%`, the phase, the triangle
  wave, the laws of `math.pow`, the envelope, channel scaling and `int()`
  truncation, all over exact `real`s.
- `pulse.dfy` (`Pulse`): `Glow.update`'s colour computation on a glow,
  including which Python exception each ill-typed attribute raises.
- `pixels.dfy` (`Pixels`): `range(j, P, n)` stride assignment, the Unicorn
  HAT index-to-grid map, and the painting of one pass on strip and grid.
- `worker.dfy` (`Worker`): one pass of `Thread.run`.
- `cli.dfy` (`Cli`): presets, truthy overrides, channel copies and candle
  durations.

The clock is a parameter instead of `time.time()`: `now` for one glow, and
one reading per glow for a worker pass, since each `update` reads the clock
itself. `math.pow` is a parameter `pow`, constrained where needed by `PowLaws`:
- `pow(1, p) = 1`;
- `pow(0, p) = 0` for `p > 0`;
- `[0, 1]` is closed for `p >= 0`.

`WholePowLaws` shows that whole exponents, such as the default 3.0, satisfy
these laws. Python's `float()`, `webcolors.hex_to_rgb` and
`webcolors.rgb_to_hex` are parameters (`Decoders`, `Encoder`), so the merge
properties hold for any behaviour of those library calls.

Behaviour of the code worth knowing, all of it modelled:
- `from_json` is not atomic. It writes every raw value first, and a failing
  coercion leaves the remaining fields as raw text (`NoRollback`,
  `BadColourLeavesText`).
- A payload that is not a JSON object changes nothing.
- No range validation exists, so `min > max`, a zero duration or a
  negative delay are accepted. A zero duration makes rendering raise
  `ZeroDivisionError`. A negative or non-numeric delay makes the worker's
  `time.sleep` raise, which ends the worker thread: Python 2's `sleep`
  raises `IOError` for a negative length and `TypeError` for anything that
  is not a number (`Worker.Sleep`).
- The default `delay` is 0.05 s.
- Every pixel of a glow's stride gets its colour.
- The Blinkt! strip and the Unicorn HAT both receive the `int()`-truncated
  colour.

## Model

| member | source | states |
|---|---|---|
| GlowState.Defaults | glow.py:64-74 | a new glow has every attribute, its phase reference is the construction time, its duration is positive and its envelope lies inside [0, 1] |
| GlowState.Convert | glow.py:91-105 | a non-text value is kept as it is; a text value becomes a number (or, for the colour, a three-entry list) or the conversion fails |
| GlowState.FromJson | glow.py:87-105 | a payload that is not an object changes nothing; `start_time` is never coerced: it takes the payload's value when named and keeps its prior value otherwise |
| GlowState.Post | glow.py:230-239 | the POST handler keeps whatever `from_json` wrote even when it raised; a non-object payload leaves the glow unchanged; unnamed non-text attributes keep their values |
| GlowState.ToJson | glow.py:76-85 | succeeds exactly when the colour is a list of at least three numbers and `rgb_to_hex` accepts its first three; an `rgb_to_hex` error is passed on; on success it exports exactly duration, colour, brightness, power, min, max and delay, never start_time; the numeric fields are exported unchanged and the colour as `rgb_to_hex`'s text |
| GlowState.CoerceUntouched | glow.py:90-105 | the coercion run never touches a field outside the coerced list, in particular start_time |
| GlowState.CoerceComplete | glow.py:90-105 | when no coercion raises, every coerced field holds the converted value of its raw value |
| GlowState.CoerceRaised | glow.py:90-105 | when a coercion raises, the fields before it are converted, and the failing field and every later field hold their raw values |
| GlowState.NonTextKept | glow.py:90-105 | an attribute that does not hold text comes out of the coercion run unchanged, whether or not the run raised |
| GlowState.AbsentFieldKept | glow.py:89-105 | an attribute the payload does not name, and that does not hold text, keeps its prior value across `from_json` |
| GlowState.TextCoerced | glow.py:91-105 | after a merge that does not raise, no coerced attribute holds text: numeric text becomes the float read from it, a hex colour becomes the three-entry list decoded from it |
| GlowState.NoRollback | glow.py:90-105 | after a merge that raised, some coerced field was text, and from it onward every field the payload named holds the raw payload value |
| GlowState.BadColourLeavesText | glow.py:90-97 | an undecodable colour next to brightness "0.5" raises, yet both stay as raw text in the state |
| GlowState.ExportThenMerge | glow.py:76-105 | merging one glow's `to_json` output into any glow (a fresh default, say) never moves the target's start_time and copies every exported numeric attribute of the source exactly |
| Waveform.PyMod | glow.py:110 | Python's float `%` has the sign of the divisor: in [0, d) for d > 0 and in (d, 0] for d < 0, and `r / d` is the fractional part of `t / d` |
| Waveform.Phase | glow.py:110 | the phase `(t % d) / d` lies in [0, 1) for every non-zero duration and equals the fractional part of `t / d` |
| Waveform.Triangle | glow.py:112-115 | on [0, 1) the triangle wave lies in [0, 1]; on [0, 1] it equals the reference `1 - abs(2u - 1)`; it is 0 at u = 0 and peaks at 1 at u = 0.5 |
| Waveform.WholePowLaws | glow.py:71 | whole non-negative exponents, such as the default 3.0, satisfy the `math.pow` laws: 1 is a fixed point, 0 is one for positive exponents, and [0, 1] is closed |
| Waveform.Envelope | glow.py:118 | `min + (max - min) * s` lies in [min, max] for s in [0, 1] and min <= max; it is min at s = 0, max at s = 1, and constant when min == max |
| Waveform.LevelInEnvelope | glow.py:113-118 | under the power laws, with brightness in [0, 1] and min <= max, the level for any phase in [0, 1) lies in [min, max] |
| Waveform.ScaleChannel | glow.py:120 | a level in [0, 1] never raises a non-negative channel and never makes it negative |
| Waveform.Truncate | glow.py:123 | `int()` truncates toward zero: the result has the sign of its argument and lies less than one away from it, on the zero side |
| Waveform.PhasePeriodic | glow.py:109-110 | the phase at `t + d` equals the phase at `t` |
| Waveform.PhasePeriods | glow.py:109-110 | the phase is unchanged after any whole number of periods |
| Waveform.PhaseAtHalf | glow.py:110 | half a duration after the reference the phase is 0.5 |
| Pulse.ScaleColour | glow.py:120 | scaling succeeds exactly for a colour list of at least three numbers and yields three channels, each the matching base channel scaled |
| Pulse.Render | glow.py:107-120 | a glow renders exactly when its attributes are numbers, its colour is a list of at least three, its duration is non-zero, and `math.pow(0, p)` with p < 0 is not reached; a zero duration raises ZeroDivisionError whenever start_time and duration are numbers, whatever the other attributes hold; a rendered colour has three channels |
| Pulse.RenderPeriodic | glow.py:109-120 | for a non-zero duration, the outcome at `now + duration` equals the outcome at `now` |
| Pulse.RenderInEnvelope | glow.py:116-120 | under the power laws, with brightness in [0, 1] and min <= max, the glow always renders, and each channel is the base channel times a level inside [min, max] |
| Pulse.SteadyWhenMinIsMax | glow.py:118-120 | when min == max and the exponent is non-negative, the glow renders the same colour at every time: the base colour times min |
| Pulse.ChannelsInByteRange | glow.py:116-125 | with base channels in [0, 255], an envelope inside [0, 1] and the other ranges above, every rendered channel and its `int()` truncation lie in [0, 255] |
| Pulse.TroughAtStart | glow.py:109-118 | at the phase reference, with a positive exponent, the output is the base colour times min |
| Pulse.PeakAtHalfDuration | glow.py:109-118 | half a duration after the phase reference, the output is the base colour times `min + (max - min) * brightness` |
| Pixels.Range | glow.py:124 | `range(start, stop, step)` starts at `start`, stays in [start, stop) and advances by `step` |
| Pixels.InRange | glow.py:124 | `i` is in `range(start, stop, step)` exactly when `start <= i < stop` and `i - start` is a multiple of `step` |
| Pixels.StridePartition | glow.py:47-51 | for n > 0 glows, pixel i is in glow j's stride exactly when i < P and j == i % n: every pixel has exactly one owner and no glow writes past the strip |
| Pixels.HatBijection | glow.py:125 | `i -> (i % 8, i / 8)` maps [0, 64) onto the 8x8 grid, and `y * 8 + x` inverts it in both directions |
| Pixels.HatInjective | glow.py:125 | distinct pixel indices land on distinct grid positions |
| Pixels.PaintStrip | glow.py:127-129 | after all glows paint their strides, strip pixel i holds glow `i % n`'s colour, whatever it held before |
| Pixels.PaintHatGlow | glow.py:122-125 | one glow's writes change exactly the grid positions it owns, to its colour |
| Pixels.PaintHat | glow.py:47-51 | after all glows paint, grid position (x, y) holds the colour of glow `(y * 8 + x) % n`; positions off the grid are untouched |
| Worker.RenderFrom | glow.py:47-51 | the glows' colours are produced in order, each at its own clock reading, exactly when every glow renders; otherwise the pass stops with the exception of the first glow that raises, every earlier glow having rendered |
| Worker.IntColour | glow.py:122-123 | each `int()` channel keeps the sign of the float channel and lies less than one from it on the zero side; channels in [0, 255] stay in [0, 255] |
| Worker.Tick | glow.py:44-56 | with no glows the pass idles; otherwise it crashes exactly when some glow fails to render or glow 0's delay is refused by `sleep`, with the first failing glow's exception when there is one; else each strip pixel and grid position shows the `int()`-truncated colour of its owning glow, rendered at that glow's own clock reading, and the pause is glow 0's delay |
| Cli.WithPresets | glow.py:166-187 | after the preset blocks, colour, min and max come from the preset latest in the fixed order stone, emerald, redstone, candle (or the defaults); brightness is 1; the duration is 10 s exactly in candle mode |
| Cli.Initial | glow.py:166-199 | every attribute comes from a truthy explicit override, else from the preset latest in the fixed order stone, emerald, redstone, candle, else from the defaults; a colour override applies whenever given, even (0, 0, 0) |
| Cli.ZeroOverridesIgnored | glow.py:188-197 | a numeric override of 0 yields the same glow as no override at all |
| Cli.SteadyPresetIsConstant | glow.py:167-181 | with stone, emerald or redstone last, no envelope override and a non-negative exponent, the configured glow renders the same colour at every time |
| Cli.CandleDecreasing | glow.py:241-246 | for a positive base duration, the candle durations `d0 * 0.45^k` are positive and strictly decrease with k |
| Cli.Channels | glow.py:241-246 | there is one copy of the configured glow per channel (none for number <= 0); in candle mode channel k has duration `d0 * 0.45^k`; candle mode with no channel raises IndexError |

## Left out

- HTTP layer (Bottle routes, static files, `app.run`, glow.py:203-239, 252): network I/O. Only the POST handler's swallowing of errors is modelled, by `GlowState.Post`.
- `LOCK`, the waiting done by `time.sleep` and the thread itself (glow.py:28, 35-56): concurrency and timing. One pass of the loop is modelled by `Worker.Tick`; `sleep`'s refusal of a bad delay is modelled by `Worker.Sleep`, and the pause it would sleep is returned. The clock readings are arbitrary reals: that they do not decrease from one glow to the next is not used.
- Hardware calls (`set_pixel`, `show`, `clear`, `off`, `get_shape`, `brightness`): device I/O. Strip and grid are plain buffers, and `show()` is not modelled.
- `json.loads` / `json.dumps`: library calls. Payloads arrive decoded as `Payload`. JSON booleans, nested objects and arrays of non-numbers as attribute values are not represented.
- `float()`, `webcolors.hex_to_rgb`, `webcolors.rgb_to_hex`: library behaviour, taken as parameters. No hex round-trip is claimed.
- Unknown payload keys, which `__dict__.update` turns into arbitrary attributes and which could overwrite the hardware handles: dynamic attribute injection, outside a typed model.
- IEEE-754 rounding, infinities and NaN: arithmetic is over exact reals.
- `math.pow` with a non-whole exponent: it has no Dafny counterpart, so it is a parameter constrained by `PowLaws`.
- `click` option parsing: the parsed options arrive as `Cli.Flags`.
- GlowState.ToJson: a colour left as text of three or more characters is treated as an export failure. What `rgb_to_hex` really does with three one-character strings is library behaviour. Which numeric channels `rgb_to_hex` refuses is left to the `Encoder` parameter, because `Value` does not tell a JSON integer from a float.
- Worker.Tick: when `time.sleep` raises, the pass is reported as `Crashed` only; the strip and grid writes and the `show()` that came before it are not reported.
- Pulse.Render: a failing render is reported as the exception it raises. The painting already done for earlier glows in that pass is not reported.
- The Unicorn HAT grid is painted from the first 64 pixel indices, as the source does. Grid orientation and `get_shape` are not modelled.

=== FILE: cli.dfy ===
/**
 * How `cli` builds the glows before the service starts (glow.py:166-199,
 * 241-246): defaults, then the preset flags in order, then the explicit
 * overrides, then one copy per channel, with candle durations per channel.
 */
module Cli {
  import opened Wrappers
  import opened GlowState
  import opened Waveform
  import opened Pulse

  /** The parsed command-line options; `None` is an option left at its default. */
  datatype Flags = Flags(
    duration: Option<real>, min: Option<real>, max: Option<real>,
    brightness: Option<real>, power: Option<real>,
    colour: Option<(int, int, int)>, number: int,
    stone: bool, emerald: bool, redstone: bool, candle: bool)

  /** Python truthiness of an optional float: absent and `0.0` are both false. */
  predicate Truthy(o: Option<real>)
  {
    o.Some? && o.value != 0.0
  }

  /** The named presets, in the order the source applies them. */
  datatype Preset = Stone | Emerald | Redstone | Candle

  function PresetColour(p: Preset): seq<real>
  {
    match p
    case Stone => [192.0, 192.0, 102.0]
    case Emerald => [0.0, 255.0, 0.0]
    case Redstone => [255.0, 0.0, 0.0]
    case Candle => [255.0, 180.0, 0.0]
  }

  function PresetMin(p: Preset): real
  {
    match p
    case Stone => 0.3
    case Emerald => 0.7
    case Redstone => 1.0
    case Candle => 0.5
  }

  function PresetMax(p: Preset): real
  {
    match p
    case Stone => 0.3
    case Emerald => 0.7
    case Redstone => 1.0
    case Candle => 0.9
  }

  /** One preset block: colour, envelope and full brightness; candle also a 10 s pulse. */
  function ApplyPreset(g: Glow, p: Preset): (r: Glow)
    ensures r[Colour] == Arr(PresetColour(p)) && r[Brightness] == Num(1.0)
    ensures r[Min] == Num(PresetMin(p)) && r[Max] == Num(PresetMax(p))
    ensures r[Duration] == if p == Candle then Num(10.0) else g[Duration]
    ensures r[StartTime] == g[StartTime] && r[Power] == g[Power] && r[Delay] == g[Delay]
  {
    var g' := g[Colour := Arr(PresetColour(p))][Min := Num(PresetMin(p))]
               [Max := Num(PresetMax(p))][Brightness := Num(1.0)];
    if p == Candle then g'[Duration := Num(10.0)] else g'
  }

  /** The preset whose block runs last, which is the one that takes effect. */
  function LastPreset(f: Flags): Option<Preset>
  {
    if f.candle then Some(Candle)
    else if f.redstone then Some(Redstone)
    else if f.emerald then Some(Emerald)
    else if f.stone then Some(Stone)
    else None
  }

  /**
   * The glow after the preset blocks (glow.py:166-187): the preset latest
   * in the fixed order stone, emerald, redstone, candle decides colour and
   * envelope, over the defaults.
   */
  function WithPresets(f: Flags, now: real): (g: Glow)
    ensures g[StartTime] == Num(now) && g[Delay] == Num(0.05) && g[Power] == Num(3.0)
    ensures g[Brightness] == Num(1.0)
    ensures g[Duration] == Num(if f.candle then 10.0 else 1.0)
    ensures g[Min] == Num(if LastPreset(f).Some? then PresetMin(LastPreset(f).value) else 0.1)
    ensures g[Max] == Num(if LastPreset(f).Some? then PresetMax(LastPreset(f).value) else 0.9)
    ensures g[Colour] == Arr(if LastPreset(f).Some? then PresetColour(LastPreset(f).value)
                             else [192.0, 192.0, 255.0])
  {
    var g := Defaults(now);
    var g := if f.stone then ApplyPreset(g, Stone) else g;
    var g := if f.emerald then ApplyPreset(g, Emerald) else g;
    var g := if f.redstone then ApplyPreset(g, Redstone) else g;
    if f.candle then ApplyPreset(g, Candle) else g
  }

  /**
   * The glow `cli` configures at time `now` (glow.py:166-199): each
   * attribute comes from a truthy explicit override if there is one, else
   * from the preset latest in the fixed order stone, emerald, redstone,
   * candle, else from the defaults.
   */
  function Initial(f: Flags, now: real): (g: Glow)
    ensures g[StartTime] == Num(now) && g[Delay] == Num(0.05)
    ensures g[Duration] == Num(
      if Truthy(f.duration) then f.duration.value
      else if f.candle then 10.0 else 1.0)
    ensures g[Min] == Num(
      if Truthy(f.min) then f.min.value
      else if LastPreset(f).Some? then PresetMin(LastPreset(f).value) else 0.1)
    ensures g[Max] == Num(
      if Truthy(f.max) then f.max.value
      else if LastPreset(f).Some? then PresetMax(LastPreset(f).value) else 0.9)
    ensures g[Brightness] == Num(if Truthy(f.brightness) then f.brightness.value else 1.0)
    ensures g[Power] == Num(if Truthy(f.power) then f.power.value else 3.0)
    ensures g[Colour] == Arr(
      if f.colour.Some? then [f.colour.value.0 as real, f.colour.value.1 as real, f.colour.value.2 as real]
      else if LastPreset(f).Some? then PresetColour(LastPreset(f).value)
      else [192.0, 192.0, 255.0])
  {
    var g := WithPresets(f, now);
    var g := Override(g, Duration, f.duration);
    var g := Override(g, Min, f.min);
    var g := Override(g, Max, f.max);
    var g := Override(g, Brightness, f.brightness);
    var g := Override(g, Power, f.power);
    if f.colour.Some? then
      var (r, gr, b) := f.colour.value;
      g[Colour := Arr([r as real, gr as real, b as real])]
    else g
  }

  /** One `if option: glow.attr = option` line: only a truthy value is applied. */
  function Override(g: Glow, fld: Field, o: Option<real>): Glow
  {
    if Truthy(o) then g[fld := Num(o.value)] else g
  }

  /** Drops the numeric overrides whose value is `0.0`. */
  function DropZero(o: Option<real>): Option<real>
  {
    if o == Some(0.0) then None else o
  }

  /** A numeric override of zero is ignored, exactly as if it were not given. */
  lemma ZeroOverridesIgnored(f: Flags, now: real)
    ensures Initial(f, now) == Initial(f.(duration := DropZero(f.duration), min := DropZero(f.min),
                                          max := DropZero(f.max), brightness := DropZero(f.brightness),
                                          power := DropZero(f.power)), now)
  {
    var f' := f.(duration := DropZero(f.duration), min := DropZero(f.min),
                 max := DropZero(f.max), brightness := DropZero(f.brightness),
                 power := DropZero(f.power));
    var g, g' := Initial(f, now), Initial(f', now);
    assert LastPreset(f') == LastPreset(f);
    assert g[Duration] == g'[Duration] && g[Min] == g'[Min] && g[Max] == g'[Max];
    assert g[Brightness] == g'[Brightness] && g[Power] == g'[Power];
    assert g[Colour] == g'[Colour] && g[StartTime] == g'[StartTime] && g[Delay] == g'[Delay];
    forall fld: Field
      ensures g[fld] == g'[fld]
    {
      FieldCases(fld);
    }
    GlowExtensional(g, g');
  }

  /** The stone, emerald and redstone presets set a one-point envelope. */
  predicate SteadyPreset(p: Preset) { p != Candle }

  /**
   * With a stone, emerald or redstone preset last, no envelope override and
   * a non-negative exponent, the configured glow renders one colour
   * forever: the preset colour scaled by the preset level.
   */
  lemma SteadyPresetIsConstant(f: Flags, now: real, t1: real, t2: real, pow: (real, real) -> real)
    requires LastPreset(f).Some? && SteadyPreset(LastPreset(f).value)
    requires !Truthy(f.min) && !Truthy(f.max)
    requires !(Truthy(f.power) && f.power.value < 0.0)
    ensures Render(Initial(f, now), t1, pow).Success?
    ensures Render(Initial(f, now), t1, pow) == Render(Initial(f, now), t2, pow)
  {
    var g := Initial(f, now);
    SteadyWhenMinIsMax(g, t1, t2, pow);
  }

  /** The candle channel durations: `d`, `d * 0.45`, `d * 0.45^2`, ... */
  function CandleDuration(d: real, k: nat): real
  {
    d * PowNat(0.45, k)
  }

  /** Candle channel durations are positive and strictly decreasing for a positive base. */
  lemma {:induction false} CandleDecreasing(d: real, k: nat, k': nat)
    requires d > 0.0 && k < k'
    ensures 0.0 < CandleDuration(d, k') < CandleDuration(d, k)
    decreases k'
  {
    PowNatPositive(k');
    PowNatPositive(k' - 1);
    var a := PowNat(0.45, k' - 1);
    assert PowNat(0.45, k') == a * 0.45;
    assert d * (a * 0.45) < d * a;
    if k < k' - 1 {
      CandleDecreasing(d, k, k' - 1);
    }
  }

  /** Powers of 0.45 are positive. */
  lemma {:induction false} PowNatPositive(k: nat)
    ensures PowNat(0.45, k) > 0.0
  {
    if k > 0 {
      PowNatPositive(k - 1);
    }
  }

  /**
   * `app.glow = [copy.copy(glow) for i in range(number)]` and the candle
   * loop: `number` copies of the configured glow (none for `number <= 0`),
   * channel `k` getting duration `d0 * 0.45^k` in candle mode; candle mode
   * with no channel raises on `app.glow[0]`.
   */
  method Channels(f: Flags, now: real) returns (r: Result<seq<Glow>, Raised>)
    ensures f.candle && f.number <= 0 <==> r.Failure?
    ensures r.Failure? ==> r.error == IndexError
    ensures r.Success? ==> |r.value| == (if f.number > 0 then f.number else 0)
    ensures r.Success? && !f.candle ==> forall k :: 0 <= k < |r.value| ==> r.value[k] == Initial(f, now)
    ensures r.Success? && f.candle ==> forall k :: 0 <= k < |r.value| ==>
      r.value[k] == Initial(f, now)[Duration := Num(CandleDuration(Initial(f, now)[Duration].x, k))]
  {
    var glow := Initial(f, now);
    var n := if f.number > 0 then f.number else 0;
    var glows := seq(n, _ => glow);
    if !f.candle {
      return Success(glows);
    }
    if n == 0 {
      return Failure(IndexError);
    }
    var d := glows[0][Duration].x;
    var d0 := d;
    var k := 0;
    while k < n
      invariant 0 <= k <= n && |glows| == n
      invariant d == CandleDuration(d0, k)
      invariant forall m :: 0 <= m < k ==> glows[m] == glow[Duration := Num(CandleDuration(d0, m))]
      invariant forall m :: k <= m < n ==> glows[m] == glow
    {
      glows := glows[k := glows[k][Duration := Num(d)]];
      d := d * 0.45;
      k := k + 1;
    }
    r := Success(glows);
  }
}

=== FILE: glow_state.dfy ===
/**
 * The state record of one glow channel (class `Glow` in glow.py) and its
 * JSON marshalling: `to_json` exports a fixed field set, `from_json` merges
 * a decoded payload into the attributes and then coerces text values.
 */
module GlowState {
  import opened Wrappers

  /** The attributes of a glow that a payload can name. */
  datatype Field = StartTime | Duration | Colour | Brightness | Power | Min | Max | Delay

  /**
   * An already-decoded JSON value as it sits in an attribute: a number,
   * a (unicode) string, an array of numbers, or null.
   */
  datatype Value = Num(x: real) | Str(s: string) | Arr(items: seq<real>) | Null

  /**
   * The Python exceptions the modelled code can raise. `IOError` is what
   * Python 2's `time.sleep` raises for a negative length.
   */
  datatype Raised = TypeError | ValueError | IndexError | ZeroDivisionError | IOError

  /** The attribute dictionary of a glow: every field is present. */
  type Glow = m: map<Field, Value> | forall f: Field :: f in m
    witness Defaults(0.0)

  /** Attribute values of a freshly constructed glow, started at `now`. */
  function Defaults(now: real): (g: map<Field, Value>)
    ensures forall f: Field :: f in g
    ensures g[StartTime] == Num(now)
    ensures g[Duration].Num? && g[Duration].x > 0.0
    ensures g[Min].Num? && g[Max].Num? && 0.0 <= g[Min].x <= g[Max].x <= 1.0
  {
    var g := map[StartTime := Num(now), Duration := Num(1.0),
                 Colour := Arr([192.0, 192.0, 255.0]), Brightness := Num(1.0),
                 Power := Num(3.0), Min := Num(0.1), Max := Num(0.9), Delay := Num(0.05)];
    assert forall f: Field :: f in g by {
      forall f: Field ensures f in g {
        FieldCases(f);
      }
    }
    g
  }

  /** Every field is one of the eight named ones. */
  lemma FieldCases(f: Field)
    ensures f in {StartTime, Duration, Colour, Brightness, Power, Min, Max, Delay}
  {
  }

  /** Two glows that agree on every field are equal. */
  lemma GlowExtensional(g: Glow, g': Glow)
    requires forall f: Field :: g[f] == g'[f]
    ensures g == g'
  {
    assert forall f: Field :: f in g && f in g';
  }

  /** Fields that `from_json` coerces from text, in the order it tries them. */
  const CoercionOrder: seq<Field> := [Duration, Colour, Brightness, Power, Min, Max, Delay]

  /** Fields that `to_json` exports: every field except the phase reference. */
  const Exported: set<Field> := {Duration, Colour, Brightness, Power, Min, Max, Delay}

  /**
   * The library conversions `from_json` relies on: Python's `float()` of a
   * string and `webcolors.hex_to_rgb`; `None` stands for a raised error.
   */
  datatype Decoders = Decoders(float: string -> Option<real>,
                               hexToRgb: string -> Option<(int, int, int)>)

  /** A JSON document after `json.loads`: an object, or any other value. */
  datatype Payload = Object(fields: map<Field, Value>) | NotObject

  /** The glow after `from_json`, and whether it raised part-way. */
  datatype Merge = Merge(state: Glow, raised: bool)

  /**
   * One coercion step: a text value is converted (a colour by the hex
   * decoder, every other field by `float`); any other value is kept.
   */
  function Convert(f: Field, v: Value, dec: Decoders): (r: Option<Value>)
    ensures !v.Str? ==> r == Some(v)
    ensures r.Some? && f != Colour ==> !r.value.Str? && (v.Str? ==> r.value.Num?)
    ensures r.Some? && f == Colour && v.Str? ==> r.value.Arr? && |r.value.items| == 3
  {
    match v
    case Str(s) =>
      if f == Colour then
        (match dec.hexToRgb(s)
         case Some(rgb) => Some(Arr([rgb.0 as real, rgb.1 as real, rgb.2 as real]))
         case None => None)
      else
        (match dec.float(s)
         case Some(x) => Some(Num(x))
         case None => None)
    case _ => Some(v)
  }

  /**
   * Runs the coercions from position `i` of `CoercionOrder` onwards; the
   * first failing conversion stops the run and leaves the rest untouched.
   */
  function CoerceFrom(g: Glow, i: nat, dec: Decoders): (r: Merge)
    requires i <= |CoercionOrder|
    decreases |CoercionOrder| - i
  {
    if i == |CoercionOrder| then Merge(g, false)
    else
      var f := CoercionOrder[i];
      match Convert(f, g[f], dec)
      case None => Merge(g, true)
      case Some(v) => CoerceFrom(g[f := v], i + 1, dec)
  }

  /**
   * `from_json`: an object payload overwrites the named attributes, then
   * every text-valued coercible attribute is converted in turn; a payload
   * that is not an object changes nothing.
   */
  function FromJson(g: Glow, p: Payload, dec: Decoders): (r: Merge)
    ensures p.NotObject? ==> r == Merge(g, false)
    ensures p.Object? && StartTime in p.fields ==> r.state[StartTime] == p.fields[StartTime]
    ensures p.Object? && StartTime !in p.fields ==> r.state[StartTime] == g[StartTime]
  {
    match p
    case NotObject => Merge(g, false)
    case Object(o) =>
      CoerceKeepsStartTime(g + o, 0, dec);
      CoerceFrom(g + o, 0, dec)
  }

  /** The POST handler: the merge is kept even when it raised, and the error is dropped. */
  function Post(g: Glow, p: Payload, dec: Decoders): (r: Glow)
    ensures p.NotObject? ==> r == g
    ensures p.Object? ==> forall f :: f !in p.fields && !g[f].Str? ==> r[f] == g[f]
  {
    if p.Object? then
      forall f | f !in p.fields && !g[f].Str?
        ensures FromJson(g, p, dec).state[f] == g[f]
      {
        AbsentFieldKept(g, p.fields, dec, f);
      }
      FromJson(g, p, dec).state
    else
      FromJson(g, p, dec).state
  }

  /**
   * `webcolors.rgb_to_hex` on the first three colour entries; it may raise
   * (on channels it cannot format, say), reported as `Failure`.
   */
  type Encoder = (real, real, real) -> Result<string, Raised>

  /**
   * `to_json`: the exported attributes, with the colour rendered as hex.
   * Raises when the colour is not an array of at least three numbers, or
   * with whatever `rgb_to_hex` raises on its first three entries.
   */
  function ToJson(g: Glow, hex: Encoder): (r: Result<map<Field, Value>, Raised>)
    ensures r.Success? <==> g[Colour].Arr? && |g[Colour].items| >= 3
                            && hex(g[Colour].items[0], g[Colour].items[1], g[Colour].items[2]).Success?
    ensures g[Colour].Arr? && |g[Colour].items| >= 3
            && hex(g[Colour].items[0], g[Colour].items[1], g[Colour].items[2]).Failure? ==>
              r == Failure(hex(g[Colour].items[0], g[Colour].items[1], g[Colour].items[2]).error)
    ensures r.Success? ==> r.value.Keys == Exported && StartTime !in r.value
    ensures r.Success? ==> forall f :: f in Exported && f != Colour ==> r.value[f] == g[f]
    ensures r.Success? ==>
      r.value[Colour] == Str(hex(g[Colour].items[0], g[Colour].items[1], g[Colour].items[2]).value)
  {
    match g[Colour]
    case Arr(c) =>
      if |c| < 3 then Failure(IndexError)
      else
        (match hex(c[0], c[1], c[2])
         case Failure(e) => Failure(e)
         case Success(h) =>
           Success(map[Duration := g[Duration], Colour := Str(h),
                       Brightness := g[Brightness], Power := g[Power],
                       Min := g[Min], Max := g[Max], Delay := g[Delay]]))
    case Str(s) => if |s| < 3 then Failure(IndexError) else Failure(TypeError)
    case _ => Failure(TypeError)
  }

  //
  // Lemmas about the coercion run
  //

  /** The coercions never touch the phase reference. */
  lemma {:induction false} CoerceKeepsStartTime(g: Glow, i: nat, dec: Decoders)
    requires i <= |CoercionOrder|
    ensures CoerceFrom(g, i, dec).state[StartTime] == g[StartTime]
    decreases |CoercionOrder| - i
  {
    if i < |CoercionOrder| {
      var f := CoercionOrder[i];
      match Convert(f, g[f], dec)
      case None =>
      case Some(v) => CoerceKeepsStartTime(g[f := v], i + 1, dec);
    }
  }

  /** No field is coerced twice. */
  lemma CoercionOrderDistinct()
    ensures forall a, b :: 0 <= a < b < |CoercionOrder| ==> CoercionOrder[a] != CoercionOrder[b]
  {
  }

  /** A coercion run from position `i` leaves every field it does not visit untouched. */
  lemma {:induction false} CoerceUntouched(g: Glow, i: nat, dec: Decoders)
    requires i <= |CoercionOrder|
    ensures forall f :: f !in CoercionOrder[i..] ==> CoerceFrom(g, i, dec).state[f] == g[f]
    decreases |CoercionOrder| - i
  {
    if i < |CoercionOrder| {
      var f := CoercionOrder[i];
      match Convert(f, g[f], dec)
      case None =>
      case Some(v) =>
        CoerceUntouched(g[f := v], i + 1, dec);
        forall h | h !in CoercionOrder[i..]
          ensures CoerceFrom(g, i, dec).state[h] == g[h]
        {
          assert h != f && h !in CoercionOrder[i + 1..];
        }
    }
  }

  /** Converting the field at position `i` leaves the fields visited later as they were. */
  lemma StepKeepsLater(g: Glow, i: nat, v: Value)
    requires i < |CoercionOrder|
    ensures forall k :: i < k < |CoercionOrder| ==>
      g[CoercionOrder[i] := v][CoercionOrder[k]] == g[CoercionOrder[k]]
  {
    CoercionOrderDistinct();
  }

  /** A coercion run that completes has converted every field it visited. */
  lemma {:induction false} CoerceComplete(g: Glow, i: nat, dec: Decoders)
    requires i <= |CoercionOrder|
    ensures !CoerceFrom(g, i, dec).raised ==>
      forall k :: i <= k < |CoercionOrder| ==>
        Convert(CoercionOrder[k], g[CoercionOrder[k]], dec) == Some(CoerceFrom(g, i, dec).state[CoercionOrder[k]])
    decreases |CoercionOrder| - i
  {
    if i < |CoercionOrder| {
      var f := CoercionOrder[i];
      match Convert(f, g[f], dec)
      case None =>
      case Some(v) =>
        var g' := g[f := v];
        var r := CoerceFrom(g', i + 1, dec);
        if !r.raised {
          CoerceComplete(g', i + 1, dec);
          CoerceUntouched(g', i + 1, dec);
          StepKeepsLater(g, i, v);
          CoercionOrderDistinct();
          assert f !in CoercionOrder[i + 1..];
          forall k | i <= k < |CoercionOrder|
            ensures Convert(CoercionOrder[k], g[CoercionOrder[k]], dec) == Some(r.state[CoercionOrder[k]])
          {
            if k > i {
              assert g'[CoercionOrder[k]] == g[CoercionOrder[k]];
            }
          }
        }
    }
  }

  /**
   * A coercion run that raises stopped at some field: the fields before it
   * are converted, it and all later fields are exactly as before the run.
   */
  lemma {:induction false} CoerceRaised(g: Glow, i: nat, dec: Decoders)
    requires i <= |CoercionOrder|
    ensures CoerceFrom(g, i, dec).raised ==>
      exists k :: i <= k < |CoercionOrder| && FailsAt(g, CoerceFrom(g, i, dec).state, i, k, dec)
    decreases |CoercionOrder| - i
  {
    if i < |CoercionOrder| {
      var r := CoerceFrom(g, i, dec);
      var f := CoercionOrder[i];
      match Convert(f, g[f], dec)
      case None =>
        assert FailsAt(g, r.state, i, i, dec);
      case Some(v) =>
        var g' := g[f := v];
        CoerceRaised(g', i + 1, dec);
        if r.raised {
          CoerceUntouched(g', i + 1, dec);
          StepKeepsLater(g, i, v);
          CoercionOrderDistinct();
          assert f !in CoercionOrder[i + 1..];
          var k :| i + 1 <= k < |CoercionOrder| && FailsAt(g', r.state, i + 1, k, dec);
          assert FailsAt(g, r.state, i, k, dec);
        }
    }
  }

  /** A coercion run from the start leaves every attribute that is not text as it was. */
  lemma NonTextKept(m: Glow, dec: Decoders, f: Field)
    requires !m[f].Str?
    ensures CoerceFrom(m, 0, dec).state[f] == m[f]
  {
    var r := CoerceFrom(m, 0, dec);
    if f !in CoercionOrder {
      CoerceUntouched(m, 0, dec);
      assert f !in CoercionOrder[0..];
    } else if !r.raised {
      CoerceComplete(m, 0, dec);
      var k := OrderIndex(f);
      assert Convert(f, m[f], dec) == Some(r.state[f]);
    } else {
      CoerceRaised(m, 0, dec);
      var k := OrderIndex(f);
      var j :| 0 <= j < |CoercionOrder| && FailsAt(m, r.state, 0, j, dec);
      if k < j {
        assert Convert(f, m[f], dec) == Some(r.state[f]);
      } else {
        assert r.state[CoercionOrder[k]] == m[CoercionOrder[k]];
      }
    }
  }

  /**
   * A run started at `i` raised at position `k`: fields `i..k-1` hold their
   * converted values, and the field at `k` failed to convert and, like every
   * later field, still holds its value from before the run.
   */
  ghost predicate FailsAt(g: Glow, r: Glow, i: nat, k: nat, dec: Decoders)
    requires i <= k < |CoercionOrder|
  {
    && Convert(CoercionOrder[k], g[CoercionOrder[k]], dec).None?
    && (forall m :: i <= m < k ==> Convert(CoercionOrder[m], g[CoercionOrder[m]], dec) == Some(r[CoercionOrder[m]]))
    && (forall m :: k <= m < |CoercionOrder| ==> r[CoercionOrder[m]] == g[CoercionOrder[m]])
  }

  /** Where a field sits in `CoercionOrder`. */
  function OrderIndex(f: Field): (k: nat)
    requires f in CoercionOrder
    ensures k < |CoercionOrder| && CoercionOrder[k] == f
  {
    if f == Duration then 0 else if f == Colour then 1 else if f == Brightness then 2
    else if f == Power then 3 else if f == Min then 4 else if f == Max then 5 else 6
  }

  /**
   * An attribute the payload does not name, and that does not hold text,
   * keeps its value across `from_json`, whether or not the merge raised.
   */
  lemma AbsentFieldKept(g: Glow, o: map<Field, Value>, dec: Decoders, f: Field)
    requires f !in o && !g[f].Str?
    ensures FromJson(g, Object(o), dec).state[f] == g[f]
  {
    NonTextKept(g + o, dec, f);
  }

  /**
   * A merge that completes leaves no coercible attribute as text: a numeric
   * text becomes the number `float` reads from it, a hex colour text becomes
   * the three-entry list `hex_to_rgb` reads from it.
   */
  lemma TextCoerced(g: Glow, o: map<Field, Value>, dec: Decoders, f: Field)
    requires f in CoercionOrder
    requires !FromJson(g, Object(o), dec).raised
    ensures !FromJson(g, Object(o), dec).state[f].Str?
    ensures f != Colour && (g + o)[f].Str? ==>
      dec.float((g + o)[f].s) == Some(FromJson(g, Object(o), dec).state[f].x)
    ensures f == Colour && (g + o)[f].Str? ==>
      var c := FromJson(g, Object(o), dec).state[f];
      && dec.hexToRgb((g + o)[f].s).Some?
      && var rgb := dec.hexToRgb((g + o)[f].s).value;
      c == Arr([rgb.0 as real, rgb.1 as real, rgb.2 as real])
  {
    CoerceComplete(g + o, 0, dec);
    var k := OrderIndex(f);
    assert Convert(f, (g + o)[f], dec) == Some(FromJson(g, Object(o), dec).state[f]);
  }

  /**
   * The merge does not roll back: when a coercion raises, the attributes
   * the payload set at and after the failing field hold the raw payload
   * values, and the phase reference holds whatever the payload gave it.
   */
  lemma NoRollback(g: Glow, o: map<Field, Value>, dec: Decoders)
    requires FromJson(g, Object(o), dec).raised
    ensures exists k :: (0 <= k < |CoercionOrder|
      && (g + o)[CoercionOrder[k]].Str?
      && (forall m :: k <= m < |CoercionOrder| && CoercionOrder[m] in o ==>
            FromJson(g, Object(o), dec).state[CoercionOrder[m]] == o[CoercionOrder[m]]))
  {
    var r := CoerceFrom(g + o, 0, dec);
    CoerceRaised(g + o, 0, dec);
    var k :| 0 <= k < |CoercionOrder| && FailsAt(g + o, r.state, 0, k, dec);
    assert (g + o)[CoercionOrder[k]].Str?;
  }

  /**
   * An instance of the missing rollback: a bad hex colour next to a numeric
   * brightness text raises, yet leaves both as raw text in the state.
   */
  lemma BadColourLeavesText(g: Glow, dec: Decoders, bad: string)
    requires dec.hexToRgb(bad).None?
    ensures var r := FromJson(g, Object(map[Colour := Str(bad), Brightness := Str("0.5")]), dec);
      && r.raised
      && r.state[Colour] == Str(bad)
      && r.state[Brightness] == Str("0.5")
  {
    var o := map[Colour := Str(bad), Brightness := Str("0.5")];
    var m := g + o;
    match Convert(Duration, m[Duration], dec)
    case None =>
    case Some(v) =>
      assert CoerceFrom(m, 0, dec) == CoerceFrom(m[Duration := v], 1, dec);
  }

  /**
   * Feeding one glow's `to_json` output through another glow's `from_json`
   * never moves the target's phase reference, and copies every numeric
   * attribute of the source exactly.
   */
  lemma ExportThenMerge(g: Glow, h: Glow, hex: Encoder, dec: Decoders, f: Field)
    requires ToJson(g, hex).Success?
    requires f in Exported && f != Colour && g[f].Num?
    ensures FromJson(h, Object(ToJson(g, hex).value), dec).state[StartTime] == h[StartTime]
    ensures FromJson(h, Object(ToJson(g, hex).value), dec).state[f] == g[f]
  {
    var o := ToJson(g, hex).value;
    assert (h + o)[f] == g[f];
    NonTextKept(h + o, dec, f);
  }
}

=== FILE: pixels.dfy ===
/**
 * Which pixels each glow writes: glow `j` of `n` paints `range(j, P, n)`
 * (glow.py:124, 128), and on the Unicorn HAT pixel `i` sits at column
 * `i % 8`, row `i / 8` of the 8x8 grid (glow.py:125).
 */
module Pixels {

  /** Python's `range(start, stop, step)` for a positive step. */
  function Range(start: nat, stop: nat, step: nat): (r: seq<nat>)
    requires step > 0
    ensures forall k :: 0 <= k < |r| ==> start <= r[k] < stop
    ensures forall k :: 0 < k < |r| ==> r[k] == r[k - 1] + step
    ensures |r| > 0 ==> r[0] == start
    decreases stop - start
  {
    if start >= stop then [] else [start] + Range(start + step, stop, step)
  }

  /** A product with a factor of at least one is at least the other factor. */
  lemma MulAtLeast(k: int, m: int)
    requires k >= 1 && m > 0
    ensures k * m >= m
  {
    assert k * m == (k - 1) * m + m;
    assert (k - 1) * m >= 0;
  }

  /** Quotient and remainder are the unique `q`, `r` with `a == q * m + r`, `0 <= r < m`. */
  lemma DivModUnique(a: int, m: int, q: int, r: int)
    requires m > 0 && 0 <= r < m && a == q * m + r
    ensures a / m == q && a % m == r
  {
    var q0 := a / m;
    var r0 := a % m;
    assert a == q0 * m + r0;
    assert (q - q0) * m == r0 - r;
    if q > q0 {
      MulAtLeast(q - q0, m);
    } else if q < q0 {
      MulAtLeast(q0 - q, m);
    }
  }

  /** Adding the modulus does not change the remainder. */
  lemma ShiftMod(a: nat, m: nat)
    requires m > 0
    ensures (a + m) % m == a % m
  {
    assert a == (a / m) * m + a % m;
    DivModUnique(a + m, m, a / m + 1, a % m);
  }

  /** The remainder never exceeds the dividend. */
  lemma ModAtMost(a: nat, m: nat)
    requires m > 0
    ensures a % m <= a
  {
    if a < m {
      DivModUnique(a, m, 0, a);
    }
  }

  /** Two numbers less than `m` apart, and not equal, have different remainders. */
  lemma Gap(i: nat, k: nat, m: nat)
    requires m > 0 && i < k < i + m
    ensures k % m != i % m
  {
    var q, r := i / m, i % m;
    assert i == q * m + r;
    var d := k - i;
    if r + d < m {
      DivModUnique(k, m, q, r + d);
    } else {
      assert k == (q + 1) * m + (r + d - m);
      DivModUnique(k, m, q + 1, r + d - m);
    }
  }

  /**
   * Membership in `range(start, stop, step)`: the values from `start`
   * below `stop` that are a whole number of steps past `start`.
   */
  lemma {:induction false} InRange(start: nat, stop: nat, step: nat, i: nat)
    requires step > 0
    ensures i in Range(start, stop, step) <==> start <= i < stop && (i - start) % step == 0
    decreases stop - start
  {
    if start < stop {
      InRange(start + step, stop, step, i);
      if i >= start + step {
        ShiftMod(i - (start + step), step);
        assert i - start == (i - (start + step)) + step;
      } else if start < i {
        DivModUnique(i - start, step, 0, i - start);
      } else if start == i {
        DivModUnique(0, step, 0, 0);
      }
    }
  }

  /**
   * The stride assignment partitions the pixels: for `n > 0` glows, pixel
   * `i < P` is in glow `j`'s range exactly when `j == i % n`, so every
   * pixel has one owner and no glow writes past the strip.
   */
  lemma StridePartition(j: nat, n: nat, pixels: nat, i: nat)
    requires 0 <= j < n
    ensures i in Range(j, pixels, n) <==> i < pixels && i % n == j
  {
    InRange(j, pixels, n, i);
    if j <= i {
      SameRemainder(i, j, n);
    } else {
      DivModUnique(i, n, 0, i);
    }
  }

  /** For `j < n` and `j <= i`, `i - j` is a multiple of `n` exactly when `i % n == j`. */
  lemma SameRemainder(i: nat, j: nat, n: nat)
    requires j < n && j <= i
    ensures (i - j) % n == 0 <==> i % n == j
  {
    var q := (i - j) / n;
    var r := (i - j) % n;
    assert i - j == q * n + r;
    if r + j < n {
      DivModUnique(i, n, q, r + j);
    } else {
      assert i == (q + 1) * n + (r + j - n);
      DivModUnique(i, n, q + 1, r + j - n);
    }
  }

  /** Grid position of pixel `i` on the Unicorn HAT: `(i % 8, i / 8)`. */
  function HatCoord(i: nat): (c: (nat, nat))
    ensures i < 64 ==> c.0 < 8 && c.1 < 8
  {
    (i % 8, i / 8)
  }

  /** The pixel index at column `x`, row `y` of the 8x8 grid. */
  function HatIndex(x: nat, y: nat): (i: nat)
    ensures x < 8 && y < 8 ==> i < 64
  {
    y * 8 + x
  }

  /**
   * `i -> (i % 8, i / 8)` is a bijection from `[0, 64)` onto the grid:
   * `HatIndex` undoes it in both directions.
   */
  lemma HatBijection(i: nat, x: nat, y: nat)
    ensures i < 64 ==> HatIndex(HatCoord(i).0, HatCoord(i).1) == i
    ensures x < 8 ==> HatCoord(HatIndex(x, y)) == (x, y)
  {
    if x < 8 {
      DivModUnique(HatIndex(x, y), 8, y, x);
    }
    if i < 64 {
      CoordThenIndex(i);
    }
  }

  /** Column and row of `i` recombine to `i`. */
  lemma CoordThenIndex(i: nat)
    ensures HatIndex(i % 8, i / 8) == i
  {
    assert i == (i / 8) * 8 + i % 8;
  }

  /** Distinct pixels land on distinct grid positions. */
  lemma HatInjective(i: nat, i': nat)
    requires HatCoord(i) == HatCoord(i')
    ensures i == i'
  {
    assert i == (i / 8) * 8 + i % 8;
    assert i' == (i' / 8) * 8 + i' % 8;
  }

  /**
   * Glows below `j` have painted their whole stride, glow `j` has painted
   * its stride below pixel `i`, and every other pixel still holds `prev`.
   */
  ghost predicate StripPaintedBelow<T>(prev: seq<T>, next: seq<T>, colours: seq<T>, j: nat, i: nat)
    requires |colours| > 0
  {
    && |next| == |prev|
    && forall k :: 0 <= k < |next| ==>
         next[k] == if k % |colours| < j || (k % |colours| == j && k < i)
                    then colours[k % |colours|] else prev[k]
  }

  /** Writing pixel `i` of glow `j`'s stride advances the painted prefix to `i + n`. */
  lemma StripPaintStep<T>(prev: seq<T>, next: seq<T>, colours: seq<T>, j: nat, i: nat)
    requires j < |colours| && i < |next| && i % |colours| == j
    requires StripPaintedBelow(prev, next, colours, j, i)
    ensures StripPaintedBelow(prev, next[i := colours[j]], colours, j, i + |colours|)
  {
    var n := |colours|;
    forall k | i < k < i + n
      ensures k % n != j
    {
      Gap(i, k, n);
    }
  }

  /**
   * One tick of the worker on a strip (glow.py:49-51, 128-129): glow `j`
   * writes its colour to every pixel of `range(j, P, n)`, in glow order.
   * Every pixel ends up with the colour of glow `i % n`, whatever it held.
   */
  method PaintStrip<T>(prev: seq<T>, colours: seq<T>) returns (next: seq<T>)
    requires |colours| > 0
    ensures |next| == |prev|
    ensures forall i :: 0 <= i < |next| ==> next[i] == colours[i % |colours|]
  {
    var n := |colours|;
    next := prev;
    var j := 0;
    while j < n
      invariant 0 <= j <= n
      invariant StripPaintedBelow(prev, next, colours, j, 0)
    {
      var i := j;
      DivModUnique(j, n, 0, j);
      while i < |next|
        invariant j <= i && i % n == j
        invariant StripPaintedBelow(prev, next, colours, j, i)
      {
        StripPaintStep(prev, next, colours, j, i);
        next := next[i := colours[j]];
        ShiftMod(i, n);
        i := i + n;
      }
      assert StripPaintedBelow(prev, next, colours, j + 1, 0);
      j := j + 1;
    }
  }

  /** The grid positions of the Unicorn HAT. */
  predicate OnGrid(c: (nat, nat)) { c.0 < 8 && c.1 < 8 }

  /** Whether glow `j` of `n` owns grid position `c`. */
  predicate OwnedBy(c: (nat, nat), j: nat, n: nat)
    requires n > 0
  {
    OnGrid(c) && HatIndex(c.0, c.1) % n == j
  }

  /**
   * Glow `j` has written `colour` at every position it owns whose pixel
   * index is below `i`, and nothing else differs from `grid`.
   */
  ghost predicate HatPaintedBelow<T>(grid: map<(nat, nat), T>, next: map<(nat, nat), T>,
                                     j: nat, n: nat, i: nat, colour: T)
    requires n > 0
  {
    && (forall c :: c in next <==> c in grid || (OwnedBy(c, j, n) && HatIndex(c.0, c.1) < i))
    && (forall c :: OwnedBy(c, j, n) && HatIndex(c.0, c.1) < i ==> next[c] == colour)
    && (forall c :: c in grid && !(OwnedBy(c, j, n) && HatIndex(c.0, c.1) < i) ==> next[c] == grid[c])
  }

  /** Writing pixel `i` of glow `j`'s stride advances the painted prefix to `i + n`. */
  lemma HatPaintStep<T>(grid: map<(nat, nat), T>, next: map<(nat, nat), T>,
                        j: nat, n: nat, i: nat, colour: T)
    requires j < n && i < 64 && i % n == j
    requires HatPaintedBelow(grid, next, j, n, i, colour)
    ensures HatPaintedBelow(grid, next[HatCoord(i) := colour], j, n, i + n, colour)
  {
    var c := HatCoord(i);
    HatBijection(i, 0, 0);
    forall c' | OnGrid(c') && i <= HatIndex(c'.0, c'.1) < i + n
      ensures OwnedBy(c', j, n) <==> c' == c
    {
      var k := HatIndex(c'.0, c'.1);
      HatBijection(0, c'.0, c'.1);
      if k > i {
        Gap(i, k, n);
      }
    }
  }

  /** Before the first write, nothing glow `j` owns lies below index `j`. */
  lemma HatPaintStart<T>(grid: map<(nat, nat), T>, j: nat, n: nat, colour: T)
    requires j < n
    ensures HatPaintedBelow(grid, grid, j, n, j, colour)
  {
    forall c | OwnedBy(c, j, n)
      ensures HatIndex(c.0, c.1) >= j
    {
      ModAtMost(HatIndex(c.0, c.1), n);
    }
  }

  /**
   * One glow's writes to the Unicorn HAT (glow.py:124-125): colour at
   * `(i % 8, i / 8)` for every `i` in `range(j, 64, n)`; exactly the grid
   * positions glow `j` owns change.
   */
  method PaintHatGlow<T>(grid: map<(nat, nat), T>, j: nat, n: nat, colour: T)
    returns (next: map<(nat, nat), T>)
    requires j < n
    ensures forall c :: c in next <==> c in grid || OwnedBy(c, j, n)
    ensures forall c :: OwnedBy(c, j, n) ==> next[c] == colour
    ensures forall c :: c in grid && !OwnedBy(c, j, n) ==> next[c] == grid[c]
  {
    next := grid;
    var i := j;
    DivModUnique(j, n, 0, j);
    HatPaintStart(grid, j, n, colour);
    while i < 64
      invariant j <= i && i % n == j
      invariant HatPaintedBelow(grid, next, j, n, i, colour)
    {
      HatPaintStep(grid, next, j, n, i, colour);
      next := next[HatCoord(i) := colour];
      ShiftMod(i, n);
      i := i + n;
    }
    forall c | OwnedBy(c, j, n)
      ensures HatIndex(c.0, c.1) < i
    {
    }
  }

  /**
   * One tick of the worker on the Unicorn HAT: the glows paint in order,
   * and every grid position ends up with the colour of the glow owning its
   * pixel index; positions off the grid are untouched.
   */
  method PaintHat<T>(prev: map<(nat, nat), T>, colours: seq<T>) returns (next: map<(nat, nat), T>)
    requires |colours| > 0
    ensures forall c :: OnGrid(c) ==> c in next && next[c] == colours[HatIndex(c.0, c.1) % |colours|]
    ensures forall c :: !OnGrid(c) ==> (c in next <==> c in prev)
    ensures forall c :: !OnGrid(c) && c in prev ==> next[c] == prev[c]
  {
    var n := |colours|;
    next := prev;
    var j := 0;
    while j < n
      invariant 0 <= j <= n
      invariant forall c :: OnGrid(c) && HatIndex(c.0, c.1) % n < j ==>
        c in next && next[c] == colours[HatIndex(c.0, c.1) % n]
      invariant forall c :: !OnGrid(c) ==> (c in next <==> c in prev)
      invariant forall c :: !OnGrid(c) && c in prev ==> next[c] == prev[c]
    {
      next := PaintHatGlow(next, j, n, colours[j]);
      j := j + 1;
    }
  }
}

=== FILE: pulse.dfy ===
/**
 * `Glow.update` (glow.py:107-120) on a glow's attributes: the colour the
 * glow shows `now`, or the Python exception the arithmetic raises when an
 * attribute holds the wrong kind of value.
 */
module Pulse {
  import opened Wrappers
  import opened GlowState
  import opened Waveform

  /**
   * `[colour[0]*f, colour[1]*f, colour[2]*f]`: indexing fails on a short
   * list or an empty string, multiplying fails on anything but numbers.
   */
  function ScaleColour(colour: Value, level: real): (r: Result<seq<real>, Raised>)
    ensures r.Success? <==> colour.Arr? && |colour.items| >= 3
    ensures r.Success? ==> |r.value| == 3
    ensures r.Success? ==> forall k :: 0 <= k < 3 ==> r.value[k] == ScaleChannel(colour.items[k], level)
  {
    match colour
    case Arr(c) =>
      if |c| < 3 then Failure(IndexError)
      else Success([ScaleChannel(c[0], level), ScaleChannel(c[1], level), ScaleChannel(c[2], level)])
    case Str(s) => if |s| == 0 then Failure(IndexError) else Failure(TypeError)
    case _ => Failure(TypeError)
  }

  /** The attributes the arithmetic reads hold numbers, and the colour a list of at least three. */
  predicate Renderable(g: Glow)
  {
    && g[StartTime].Num? && g[Duration].Num? && g[Power].Num?
    && g[Brightness].Num? && g[Min].Num? && g[Max].Num?
    && g[Colour].Arr? && |g[Colour].items| >= 3
  }

  /** The phase of a renderable glow with a non-zero duration at time `now`. */
  function PhaseAt(g: Glow, now: real): real
    requires g[StartTime].Num? && g[Duration].Num? && g[Duration].x != 0.0
  {
    Phase(now - g[StartTime].x, g[Duration].x)
  }

  /**
   * The colour glow `g` shows at wall-clock time `now`, `math.pow` being
   * `pow`; the failures are the exceptions the same lines raise, in the
   * order the source evaluates them.
   */
  function Render(g: Glow, now: real, pow: (real, real) -> real): (r: Result<seq<real>, Raised>)
    ensures r.Success? ==> Renderable(g) && g[Duration].x != 0.0 && |r.value| == 3
    ensures r.Success? <==>
      Renderable(g) && g[Duration].x != 0.0 &&
      !(Triangle(PhaseAt(g, now)) == 0.0 && g[Power].x < 0.0)
    ensures g[StartTime].Num? && g[Duration].Num? && g[Duration].x == 0.0 ==> r == Failure(ZeroDivisionError)
  {
    if !g[StartTime].Num? || !g[Duration].Num? then Failure(TypeError)
    else if g[Duration].x == 0.0 then Failure(ZeroDivisionError)
    else
      var f := Triangle(PhaseAt(g, now));
      if !g[Power].Num? then Failure(TypeError)
      else if f == 0.0 && g[Power].x < 0.0 then Failure(ValueError)
      else if !g[Brightness].Num? || !g[Min].Num? || !g[Max].Num? then Failure(TypeError)
      else
        ScaleColour(g[Colour], Level(PhaseAt(g, now), g[Power].x, g[Brightness].x,
                                     g[Min].x, g[Max].x, pow))
  }

  /** A glow that renders at all renders the same colour one duration later. */
  lemma RenderPeriodic(g: Glow, now: real, pow: (real, real) -> real)
    requires g[StartTime].Num? && g[Duration].Num? && g[Duration].x != 0.0
    ensures Render(g, now + g[Duration].x, pow) == Render(g, now, pow)
  {
    var d := g[Duration].x;
    PhasePeriodic(now - g[StartTime].x, d);
    assert (now + d) - g[StartTime].x == (now - g[StartTime].x) + d;
  }

  /** The attribute ranges under which the pulse stays inside its envelope. */
  ghost predicate EnvelopeRanges(g: Glow, pow: (real, real) -> real)
  {
    && Renderable(g) && g[Duration].x != 0.0
    && g[Power].x >= 0.0 && PowLaws(pow, g[Power].x)
    && 0.0 <= g[Brightness].x <= 1.0
    && g[Min].x <= g[Max].x
  }

  /** The brightness level of a renderable glow at time `now`. */
  function LevelAt(g: Glow, now: real, pow: (real, real) -> real): real
    requires Renderable(g) && g[Duration].x != 0.0
  {
    Level(PhaseAt(g, now), g[Power].x, g[Brightness].x, g[Min].x, g[Max].x, pow)
  }

  /**
   * With the shaping laws, a brightness in `[0, 1]` and `min <= max`, the
   * glow renders at every time, each channel being the base channel times
   * a level inside `[min, max]`.
   */
  lemma RenderInEnvelope(g: Glow, now: real, pow: (real, real) -> real)
    requires EnvelopeRanges(g, pow)
    ensures Render(g, now, pow).Success?
    ensures g[Min].x <= LevelAt(g, now, pow) <= g[Max].x
    ensures forall k :: 0 <= k < 3 ==>
      Render(g, now, pow).value[k] == g[Colour].items[k] * LevelAt(g, now, pow)
  {
    LevelInEnvelope(PhaseAt(g, now), g[Power].x, g[Brightness].x, g[Min].x, g[Max].x, pow);
  }

  /**
   * A glow whose envelope is a single point (`min == max`, as the stone,
   * emerald and redstone presets set) shows the same colour at every time:
   * the base colour scaled by that point.
   */
  lemma SteadyWhenMinIsMax(g: Glow, t1: real, t2: real, pow: (real, real) -> real)
    requires Renderable(g) && g[Duration].x != 0.0 && g[Power].x >= 0.0
    requires g[Min].x == g[Max].x
    ensures Render(g, t1, pow).Success?
    ensures Render(g, t1, pow) == Render(g, t2, pow)
    ensures forall k :: 0 <= k < 3 ==> Render(g, t1, pow).value[k] == g[Colour].items[k] * g[Min].x
  {
  }

  /**
   * Channels stay displayable: with base channels in `[0, 255]`, an
   * envelope inside `[0, 1]` and the other ranges above, every rendered
   * channel is in `[0, 255]`, and so is its truncation for the Unicorn HAT.
   */
  lemma ChannelsInByteRange(g: Glow, now: real, pow: (real, real) -> real)
    requires EnvelopeRanges(g, pow)
    requires 0.0 <= g[Min].x && g[Max].x <= 1.0
    requires forall k :: 0 <= k < 3 ==> 0.0 <= g[Colour].items[k] <= 255.0
    ensures Render(g, now, pow).Success?
    ensures forall k :: 0 <= k < 3 ==>
      0.0 <= Render(g, now, pow).value[k] <= 255.0 && 0 <= Truncate(Render(g, now, pow).value[k]) <= 255
  {
    RenderInEnvelope(g, now, pow);
    var r := Render(g, now, pow).value;
    forall k | 0 <= k < 3
      ensures 0.0 <= r[k] <= 255.0 && 0 <= Truncate(r[k]) <= 255
    {
      assert r[k] == ScaleChannel(g[Colour].items[k], LevelAt(g, now, pow));
    }
  }

  /**
   * At the phase reference the triangle wave is 0, so a positive exponent
   * leaves the floor of the envelope: the colour scaled by `min`.
   */
  lemma TroughAtStart(g: Glow, pow: (real, real) -> real)
    requires Renderable(g) && g[Duration].x != 0.0
    requires g[Power].x > 0.0 && PowLaws(pow, g[Power].x)
    ensures Render(g, g[StartTime].x, pow).Success?
    ensures forall k :: 0 <= k < 3 ==>
      Render(g, g[StartTime].x, pow).value[k] == g[Colour].items[k] * g[Min].x
  {
    var d := g[Duration].x;
    assert g[StartTime].x - g[StartTime].x == 0.0;
    assert Phase(0.0, d) == 0.0 by {
      assert 0.0 / d == 0.0;
    }
  }

  /**
   * Half a duration after the phase reference the triangle wave is 1, so
   * the level is `min + (max - min) * brightness` whatever the exponent.
   */
  lemma PeakAtHalfDuration(g: Glow, pow: (real, real) -> real)
    requires Renderable(g) && g[Duration].x > 0.0 && PowLaws(pow, g[Power].x)
    ensures Render(g, g[StartTime].x + g[Duration].x / 2.0, pow).Success?
    ensures forall k :: 0 <= k < 3 ==>
      Render(g, g[StartTime].x + g[Duration].x / 2.0, pow).value[k] ==
        g[Colour].items[k] * (g[Min].x + (g[Max].x - g[Min].x) * g[Brightness].x)
  {
    var d := g[Duration].x;
    var now := g[StartTime].x + d / 2.0;
    assert now - g[StartTime].x == d / 2.0;
    PhaseAtHalf(d);
    assert Triangle(PhaseAt(g, now)) == 1.0;
  }
}

=== FILE: waveform.dfy ===
/**
 * The pulse arithmetic of `Glow.update` (glow.py:107-120) over exact reals:
 * phase, triangle wave, power shaping, brightness, envelope and per-channel
 * scaling, plus Python's `int()` truncation used for the Unicorn HAT.
 */
module Waveform {

  /** Python's float `%`: the remainder takes the sign of the divisor. */
  function PyMod(t: real, d: real): (r: real)
    requires d != 0.0
    ensures d > 0.0 ==> 0.0 <= r < d
    ensures d < 0.0 ==> d < r <= 0.0
    ensures r / d == t / d - (t / d).Floor as real
  {
    var q := t / d;
    var w := q - q.Floor as real;
    Quotient(t, d);
    ScaledFraction(d, w);
    Cancel(d, w);
    assert t - d * q.Floor as real == d * w;
    d * w
  }

  /** The quotient times the divisor gives back the dividend. */
  lemma Quotient(t: real, d: real)
    requires d != 0.0
    ensures d * (t / d) == t
  {
  }

  /** Multiplying by `d` and dividing by it again is the identity. */
  lemma Cancel(d: real, w: real)
    requires d != 0.0
    ensures (d * w) / d == w
  {
  }

  /** A non-negative `a` scaled by a factor in `[0, 1]` stays within `[0, a]`. */
  lemma ScaleUnit(a: real, s: real)
    requires 0.0 <= a && 0.0 <= s <= 1.0
    ensures 0.0 <= a * s <= a
  {
    assert a * s <= a * 1.0;
  }

  /** A fraction in `[0, 1)` of `d` lies between 0 and `d`, on the side of `d`. */
  lemma ScaledFraction(d: real, w: real)
    requires 0.0 <= w < 1.0
    ensures d > 0.0 ==> 0.0 <= d * w < d
    ensures d < 0.0 ==> d < d * w <= 0.0
  {
    if d > 0.0 {
      assert d * w < d * 1.0;
    } else if d < 0.0 {
      assert d * w > d * 1.0;
    }
  }

  /** The position within the current pulse, `(t % d) / d`: the fractional part of `t / d`. */
  function Phase(t: real, d: real): (u: real)
    requires d != 0.0
    ensures 0.0 <= u < 1.0
    ensures u == t / d - (t / d).Floor as real
  {
    PyMod(t, d) / d
  }

  function Abs(x: real): real { if x < 0.0 then -x else x }

  /**
   * The triangle wave: `|2u|` folded back at 1. On one period it rises
   * from 0 to 1 and falls back, i.e. it equals `1 - |2u - 1|`.
   */
  function Triangle(u: real): (f: real)
    ensures 0.0 <= u < 1.0 ==> 0.0 <= f <= 1.0
    ensures 0.0 <= u <= 1.0 ==> f == 1.0 - Abs(2.0 * u - 1.0)
    ensures u == 0.0 ==> f == 0.0
    ensures u == 0.5 ==> f == 1.0
  {
    var f := Abs(u * 2.0);
    if f > 1.0 then 2.0 - f else f
  }

  /** `x` raised to a natural power. */
  function PowNat(x: real, n: nat): real
  {
    if n == 0 then 1.0 else PowNat(x, n - 1) * x
  }

  /**
   * The facts about `math.pow(f, p)` the waveform relies on, for the
   * exponent `p` in use: 1 is a fixed point, 0 is one for positive
   * exponents, and a non-negative exponent keeps `[0, 1]` closed.
   */
  ghost predicate PowLaws(pow: (real, real) -> real, p: real)
  {
    && pow(1.0, p) == 1.0
    && (p > 0.0 ==> pow(0.0, p) == 0.0)
    && (p >= 0.0 ==> forall x :: 0.0 <= x <= 1.0 ==> 0.0 <= pow(x, p) <= 1.0)
  }

  /** `math.pow` for whole non-negative exponents, such as the default 3.0. */
  function WholePow(x: real, p: real): real
  {
    if p >= 0.0 then PowNat(x, p.Floor) else 1.0
  }

  /** Natural powers keep `[0, 1]` closed. */
  lemma {:induction false} PowNatUnit(x: real, n: nat)
    requires 0.0 <= x <= 1.0
    ensures 0.0 <= PowNat(x, n) <= 1.0
  {
    if n > 0 {
      PowNatUnit(x, n - 1);
      ScaleUnit(PowNat(x, n - 1), x);
    }
  }

  /** Natural powers fix 0 (for positive exponents) and 1. */
  lemma {:induction false} PowNatFixedPoints(n: nat)
    ensures PowNat(1.0, n) == 1.0
    ensures n > 0 ==> PowNat(0.0, n) == 0.0
  {
    if n > 0 {
      PowNatFixedPoints(n - 1);
    }
  }

  /** Whole-number exponents obey the laws the waveform relies on. */
  lemma WholePowLaws(p: real)
    requires p >= 0.0 && p == p.Floor as real
    ensures PowLaws(WholePow, p)
  {
    PowNatFixedPoints(p.Floor);
    forall x | 0.0 <= x <= 1.0
      ensures 0.0 <= WholePow(x, p) <= 1.0
    {
      PowNatUnit(x, p.Floor);
    }
  }

  /**
   * The envelope mapping `lo + (hi - lo) * s`: a shaped value in `[0, 1]`
   * lands in `[lo, hi]`, with 0 at the floor and 1 at the ceiling.
   */
  function Envelope(lo: real, hi: real, s: real): (r: real)
    ensures lo <= hi && 0.0 <= s <= 1.0 ==> lo <= r <= hi
    ensures s == 0.0 ==> r == lo
    ensures s == 1.0 ==> r == hi
    ensures lo == hi ==> r == lo
  {
    lo + Scaled(hi - lo, s)
  }

  /**
   * `a * s`: a factor in `[0, 1]` scales a non-negative `a` into `[0, a]`.
   */
  function Scaled(a: real, s: real): (m: real)
    ensures m == a * s
    ensures 0.0 <= a && 0.0 <= s <= 1.0 ==> 0.0 <= m <= a
  {
    if 0.0 <= a && 0.0 <= s <= 1.0 then
      ScaleUnit(a, s);
      a * s
    else
      a * s
  }

  /**
   * The brightness level at phase `u`: triangle wave, shaped by `pow` to
   * the exponent `p`, times `brightness`, mapped into `[lo, hi]`.
   */
  function Level(u: real, p: real, brightness: real, lo: real, hi: real,
                 pow: (real, real) -> real): (l: real)
  {
    Envelope(lo, hi, pow(Triangle(u), p) * brightness)
  }

  /**
   * Under the power laws, a brightness in `[0, 1]` and `lo <= hi`, the
   * level stays in the envelope for every phase in `[0, 1)`.
   */
  lemma LevelInEnvelope(u: real, p: real, brightness: real, lo: real, hi: real,
                        pow: (real, real) -> real)
    requires 0.0 <= u < 1.0 && p >= 0.0 && PowLaws(pow, p)
    requires 0.0 <= brightness <= 1.0 && lo <= hi
    ensures lo <= Level(u, p, brightness, lo, hi, pow) <= hi
  {
    var s := pow(Triangle(u), p);
    assert 0.0 <= s <= 1.0;
    ScaleUnit(brightness, s);
    assert s * brightness == brightness * s;
  }

  /**
   * Channel scaling `colour[k] * f`: a level in `[0, 1]` dims a
   * non-negative channel without ever raising it, so `[0, 255]` is kept.
   */
  function ScaleChannel(c: real, level: real): (r: real)
    ensures 0.0 <= c && 0.0 <= level <= 1.0 ==> 0.0 <= r <= c
  {
    Scaled(c, level)
  }

  /**
   * Python's `int()` on a float: truncation toward zero, so the result has
   * the sign of `x` and lies less than one away from it, nearer zero.
   */
  function Truncate(x: real): (n: int)
    ensures x >= 0.0 ==> 0 <= n && n as real <= x < n as real + 1.0
    ensures x < 0.0 ==> n <= 0 && n as real - 1.0 < x <= n as real
  {
    if x >= 0.0 then x.Floor else -((-x).Floor)
  }

  /** One period later the phase is the same: the waveform is periodic. */
  lemma PhasePeriodic(t: real, d: real)
    requires d != 0.0
    ensures Phase(t + d, d) == Phase(t, d)
  {
    PhasePeriods(t, d, 1);
    assert t + (1 as real) * d == t + d;
  }

  /** Any whole number of periods later the phase is the same. */
  lemma PhasePeriods(t: real, d: real, n: nat)
    requires d != 0.0
    ensures Phase(t + n as real * d, d) == Phase(t, d)
  {
    DivShift(t, d, n as real);
    FractionShift(t / d, n);
  }

  /** Adding `k` periods to the dividend adds `k` to the quotient. */
  lemma DivShift(t: real, d: real, k: real)
    requires d != 0.0
    ensures (t + k * d) / d == t / d + k
  {
    assert (t + k * d) / d == t / d + (k * d) / d;
    Cancel(d, k);
    assert d * k == k * d;
  }

  /** The fractional part is unchanged by adding a whole number. */
  lemma FractionShift(q: real, n: int)
    ensures (q + n as real) - (q + n as real).Floor as real == q - q.Floor as real
  {
    assert (q + n as real).Floor == q.Floor + n;
  }

  /** Half a period after the phase reference the triangle wave peaks. */
  lemma PhaseAtHalf(d: real)
    requires d > 0.0
    ensures Phase(d / 2.0, d) == 0.5
  {
    Cancel(d, 0.5);
    assert d * 0.5 == d / 2.0;
  }
}

=== FILE: worker.dfy ===
/**
 * One pass of the worker loop `Thread.run` (glow.py:44-56): every glow is
 * rendered in turn and painted onto its stride of the Blinkt! strip and of
 * the Unicorn HAT grid, then the thread sleeps for glow 0's delay. The
 * clock reading each `update` takes is a parameter; the lock and `show()`
 * are not modelled.
 */
module Worker {
  import opened Wrappers
  import opened GlowState
  import opened Waveform
  import opened Pulse
  import opened Pixels

  /** The outcome of one pass of the loop. */
  datatype Pass =
    | Idle                                  // no glows: sleep 0.1 s
    | Shown(strip: seq<seq<int>>,           // Blinkt! pixels
            hat: map<(nat, nat), seq<int>>, // Unicorn HAT grid
            pause: real)                    // seconds slept: glow 0's `delay`
    | Crashed(error: Raised)                // `update` or `sleep` raised: the thread ends

  /**
   * The colours of glows `i..` in order, glow `j` rendered at `times[j]`;
   * the first glow that raises stops the pass with its exception.
   */
  function RenderFrom(glows: seq<Glow>, times: seq<real>, i: nat, pow: (real, real) -> real)
    : (r: Result<seq<seq<real>>, Raised>)
    requires |times| == |glows| && i <= |glows|
    ensures r.Success? <==> forall j :: i <= j < |glows| ==> Render(glows[j], times[j], pow).Success?
    ensures r.Success? ==> |r.value| == |glows| - i
    ensures r.Success? ==> forall j :: i <= j < |glows| ==> r.value[j - i] == Render(glows[j], times[j], pow).value
    ensures r.Failure? ==> exists j :: i <= j < |glows| && Render(glows[j], times[j], pow) == Failure(r.error)
                                       && (forall m :: i <= m < j ==> Render(glows[m], times[m], pow).Success?)
    decreases |glows| - i
  {
    if i == |glows| then Success([])
    else
      match Render(glows[i], times[i], pow)
      case Failure(e) => Failure(e)
      case Success(c) =>
        match RenderFrom(glows, times, i + 1, pow)
        case Failure(e) => Failure(e)
        case Success(cs) => Success([c] + cs)
  }

  /**
   * `[int(i) for i in colour]`: each channel truncated toward zero, so it
   * keeps its sign and moves less than one toward zero; channels in
   * `[0, 255]` stay there.
   */
  function IntColour(c: seq<real>): (r: seq<int>)
    requires |c| == 3
    ensures |r| == 3
    ensures forall k :: 0 <= k < 3 && c[k] >= 0.0 ==> 0 <= r[k] && r[k] as real <= c[k] < r[k] as real + 1.0
    ensures forall k :: 0 <= k < 3 && c[k] < 0.0 ==> r[k] <= 0 && r[k] as real - 1.0 < c[k] <= r[k] as real
    ensures forall k :: 0 <= k < 3 && 0.0 <= c[k] <= 255.0 ==> 0 <= r[k] <= 255
  {
    [Truncate(c[0]), Truncate(c[1]), Truncate(c[2])]
  }

  /**
   * Python 2's `time.sleep(delay)`: it sleeps for a non-negative number,
   * raises `IOError` for a negative one and `TypeError` for anything that
   * is not a number.
   */
  function Sleep(delay: Value): Result<real, Raised>
  {
    match delay
    case Num(x) => if x < 0.0 then Failure(IOError) else Success(x)
    case _ => Failure(TypeError)
  }

  /**
   * One pass of the loop over `glows`, glow `j` rendered at `times[j]`,
   * painting onto the previous strip and grid contents. The first glow
   * that raises ends the thread; so does a delay `sleep` refuses.
   * Otherwise every pixel ends up with the truncated colour of the glow
   * that owns it, `i % len(glows)`.
   */
  method Tick(glows: seq<Glow>, times: seq<real>, pow: (real, real) -> real,
              strip: seq<seq<int>>, hat: map<(nat, nat), seq<int>>) returns (t: Pass)
    requires |times| == |glows|
    ensures |glows| == 0 <==> t == Idle
    ensures t.Crashed? <==> |glows| > 0 && ((exists j :: 0 <= j < |glows| && Render(glows[j], times[j], pow).Failure?)
                                            || Sleep(glows[0][Delay]).Failure?)
    ensures t.Crashed? && (forall j :: 0 <= j < |glows| ==> Render(glows[j], times[j], pow).Success?) ==>
      t.error == Sleep(glows[0][Delay]).error
    ensures forall j :: 0 <= j < |glows| && Render(glows[j], times[j], pow).Failure?
                        && (forall m :: 0 <= m < j ==> Render(glows[m], times[m], pow).Success?) ==>
      t == Crashed(Render(glows[j], times[j], pow).error)
    ensures t.Shown? ==> t.pause == glows[0][Delay].x
    ensures t.Shown? ==> |t.strip| == |strip|
    ensures t.Shown? ==> forall i :: 0 <= i < |strip| ==>
      t.strip[i] == IntColour(Render(glows[i % |glows|], times[i % |glows|], pow).value)
    ensures t.Shown? ==> forall c :: OnGrid(c) ==>
      c in t.hat && t.hat[c] == IntColour(Render(glows[HatIndex(c.0, c.1) % |glows|],
                                                 times[HatIndex(c.0, c.1) % |glows|], pow).value)
  {
    if |glows| == 0 {
      return Idle;
    }
    var rendered := RenderFrom(glows, times, 0, pow);
    if rendered.Failure? {
      FirstFailureUnique(glows, times, pow, rendered.error);
      return Crashed(rendered.error);
    }
    var colours := rendered.value;
    forall k | 0 <= k < |colours|
      ensures |colours[k]| == 3
    {
      assert colours[k] == Render(glows[k], times[k], pow).value;
    }
    var truncated := seq(|colours|, k requires 0 <= k < |colours| => IntColour(colours[k]));
    var strip' := PaintStrip(strip, truncated);
    var hat' := PaintHat(hat, truncated);
    match Sleep(glows[0][Delay])
    case Failure(e) =>
      t := Crashed(e);
    case Success(pause) =>
      t := Shown(strip', hat', pause);
  }

  /**
   * The first glow that raises is unique: when the pass stops with `e`,
   * every glow that raises with all earlier glows rendered raises `e`.
   */
  lemma FirstFailureUnique(glows: seq<Glow>, times: seq<real>, pow: (real, real) -> real, e: Raised)
    requires |times| == |glows|
    requires RenderFrom(glows, times, 0, pow) == Failure(e)
    ensures forall j :: 0 <= j < |glows| && Render(glows[j], times[j], pow).Failure?
                        && (forall m :: 0 <= m < j ==> Render(glows[m], times[m], pow).Success?) ==>
      Render(glows[j], times[j], pow).error == e
  {
    var j0 :| 0 <= j0 < |glows| && Render(glows[j0], times[j0], pow) == Failure(e)
              && (forall m :: 0 <= m < j0 ==> Render(glows[m], times[m], pow).Success?);
  }
}

=== FILE: wrappers.dfy ===
/** Failure-carrying result types shared by the glow model. */
module Wrappers {

  /** A value that may be absent, as a Python `None` default. */
  datatype Option<+T> = None | Some(value: T)

  /** A computation that either returns a value or raises an error. */
  datatype Result<+T, +E> = Success(value: T) | Failure(error: E)
}
